=== FILE: README.md ===
# Messaging core of a toggle browser extension, in Dafny

This project models the messaging logic of a two-context browser extension.

- **Content script** (`src/content/index.ts`). It holds a page-local `isActive` flag. `toggleFeature` keeps three things in step: the flag, the `extension-active` class on `body`, and the stored `featureActive` value. Its message handler answers `ping`, `iconClicked`, `getState` and unknown actions. Start-up restores the flag from storage.
- **Background service worker** (`src/background/index.ts`). Its icon-click listener is a presence-checked dispatch:
  - refuse tabs without an id, or with a restricted URL;
  - otherwise ping the tab, and send `iconClicked` if the ping succeeds;
  - on a "Could not establish connection" error, inject `content.js` once and resend `iconClicked` once.

  The worker also has a small `getData`/`saveData` protocol over storage, and an install hook.

Everything is a pure function over immutable values:

- `Protocol`: the message, response and JSON value shapes. It also holds the response invariant: a success carries no error; a failure carries an error and no data.
- `Storage`: `chrome.storage.local` as a map from keys to values.
- `JsString`: `startsWith` and `includes`.
- `Content`: the content script. A page is a value. The handler maps (page, message) to (page, response, keep-channel-open flag).
- `Background`: `onInstalled`, and the background `onMessage` handler.
- `Dispatch`: the click listener. The platform is an oracle: `oracle(k)` is the outcome of the k-th platform call the run makes (`sendMessage` or `executeScript`). The outcome is a reply, an undefined reply, or a thrown value. `OnClicked` returns the calls it made and how the run ended, so bounds, ordering and "no call made" are properties of that trace.
- `Scenarios`: the click flow run against the content script itself. A message reaches a script exactly when its send resolved. It covers a tab whose script is loaded, and a tab that needs injection. It also follows the path that sends `iconClicked` twice. There the first send threw, so only the resend reaches a script and the feature toggles at most once. If a send could throw after its message arrived, the two toggles would cancel each other out.

Points where the model follows the code closely:

- `!tab.id` is JavaScript falsiness, so tab id `0` is refused just like a missing id. An undefined or empty URL passes the restricted-URL guard.
- `getStorageData<boolean>` is an unchecked cast. So `setActive` stores whatever value storage holds, and `toggle` turns it into a boolean through truthiness. The flag is therefore modelled as a JSON value. Toggling twice restores a boolean flag, but turns any other value into a boolean.
- An undefined reply to `iconClicked` makes `response.success` throw a TypeError inside the `try`. The model uses V8's message for it: "Cannot read properties of undefined (reading 'success')". That message lacks the connection phrase, so on the direct path the run ends without injection. On the retry path the inner `catch` absorbs it.
- A thrown value that is not an `Error` fails `instanceof Error` and ends the run silently.
- `saveData` without `data` writes `{someKey: undefined}`. The model assumes storage drops undefined values, so nothing is written.

Further facts about the code that the model keeps:

- `iconClicked` is a toggle and is not idempotent: a repeated delivery undoes the first (`Content.ReceiveFlipsByParity`, `Scenarios.DuplicateDeliveryCancels`).
- The click listener only logs the reply. `OnClicked` reports it in the run's end.
- Only an `Error` whose message includes "Could not establish connection" leads to injection. Any other failure of the ping or of `iconClicked` ends the run.
- The content handler always returns `false`. It answers synchronously even when its storage write is still pending.

## Model

| member | source | states |
|---|---|---|
| `Content.Toggle` | src/content/index.ts:33-35 | the new flag is always a boolean, and its truthiness is the opposite of the old flag's |
| `Content.ToggleTwice` | src/content/index.ts:33-35 | toggling a boolean flag twice gives back the original state |
| `Content.ToggleTwiceNormalises` | src/content/index.ts:22-35 | toggling twice turns any flag into the boolean of its truthiness, so it is not an involution on non-boolean restored values |
| `Content.ToggleFeature` | src/content/index.ts:139-162 | the flag's truthiness flips; afterwards the body class is present exactly when the flag is true, and the stored `featureActive` equals the new flag; no other storage key changes |
| `Content.HandleMessage` | src/content/index.ts:168-211 | the handler never keeps the channel open; every response is well formed; success holds exactly for `ping`, `iconClicked` and `getState`; only `iconClicked` changes the page; `ping` answers `pong`; `iconClicked` makes the flag the boolean negation of its old truthiness, stores it under `featureActive`, leaves every other storage key alone, and answers success with no data; `getState` answers `{isActive}` with the current flag; anything else answers exactly "Unknown action: " + action; the three views of the feature stay in step |
| `Content.Initialize` | src/content/index.ts:217-235 | storage is never written; a failed read or an absent value leaves the page unchanged; a stored value becomes the flag, and the body class is added only when that value is truthy |
| `Content.InitializeSyncs` | src/content/index.ts:217-235 | on a fresh page whose stored flag is absent or boolean, start-up leaves the flag, body class and storage in step, except when the read fails while `true` is stored |
| `Content.ReceiveKeepsSynced` | src/content/index.ts:139-201 | any sequence of messages preserves the agreement of flag, body class and stored flag |
| `Content.ReceiveFlipsByParity` | src/content/index.ts:183-187 | after any sequence of messages, the flag has flipped exactly when an odd number of them were `iconClicked` |
| `Storage.Get` | src/content/index.ts:79-93 | a read returns a value exactly when the key is stored, and then returns the stored value |
| `Storage.Set` | src/content/index.ts:95-109 | after a write, the key reads back the written value; every other key reads as before |
| `Storage.SetAll` | src/background/index.ts:26-29 | a multi-key write sets every given key and leaves every other key unchanged |
| `Protocol.UnknownAction` | src/background/index.ts:149-154 | the unknown-action answer is a well-formed failure whose error is the prefix "Unknown action: " followed by the action itself |
| `Protocol.UnknownActionInjective` | src/background/index.ts:149-154 | two unknown actions get the same answer exactly when they are the same action |
| `Background.OnInstalled` | src/background/index.ts:21-35 | on install, storage holds `initialized = true` and `installedAt = now`, and no other key changes; every other reason, update included, writes nothing |
| `Background.HandleMessage` | src/background/index.ts:120-157 | responses are well formed; the channel stays open exactly for `getData` and `saveData`, and exactly those succeed; `getData` answers the stored `someKey` without writing; `saveData` stores its data under `someKey` and touches no other key; any other action answers "Unknown action: " + action and changes nothing |
| `Background.SaveThenGet` | src/background/index.ts:130-147 | `saveData v` followed by `getData` answers `{success: true, data: v}` with the channel kept open; no key other than `someKey` changes |
| `Dispatch.IsRestrictedIffPrefix` | src/background/index.ts:47-57 | the guard refuses exactly the URLs that start with one of the five restricted prefixes; an undefined URL is never refused |
| `Dispatch.OnClicked` | src/background/index.ts:41-115 | no platform call is made exactly when the tab has no id or a restricted URL; otherwise the calls are one of six sequences, each starting with a ping |
| `Dispatch.CallBounds` | src/background/index.ts:59-115 | per click: at most four calls, all to the clicked tab; at most one ping, at most one injection of `content.js`, at most two `iconClicked` sends |
| `Dispatch.PingGatesIconClicked` | src/background/index.ts:61-78 | the direct `iconClicked` is sent exactly when the ping reply is present with `success` true; any other resolved ping reply ends the run after the ping |
| `Dispatch.InjectionOnlyOnConnectionError` | src/background/index.ts:79-93 | an injection immediately follows a call that threw an `Error` whose message includes the connection phrase; any call that throws anything else is the last call of the run |
| `Dispatch.AtMostOneRetry` | src/background/index.ts:88-111 | after a resolved injection, exactly one `iconClicked` is resent and the run ends; after a failed injection nothing more is sent |
| `Dispatch.UndefinedReplyIsNotConnectionError` | src/background/index.ts:73-85 | the TypeError raised by reading `success` of an undefined reply does not count as a missing connection |
| `Dispatch.NoReceiverIsConnectionError` | src/background/index.ts:85 | the platform's no-receiver error message includes the connection phrase |
| `Dispatch.MissingScriptIsInjected` | src/background/index.ts:79-101 | when the ping throws any `Error` whose message includes the connection phrase (the no-receiver error among them), the run is ping then injection, followed by the single resend exactly when the injection resolves |
| `Dispatch.ReportsFinalAttempt` | src/background/index.ts:66-111 | a reported response is the reply to the last call; a present reply to a final `iconClicked`, failed or not, is always what the run reports, as `Recovered` after an injection and `Delivered` otherwise; the run ends on the recovery path exactly when it injected; a reported error is the last call's own error, or the TypeError of its undefined reply |
| `Dispatch.TwoIconClickedIff` | src/background/index.ts:61-101 | `iconClicked` is sent twice exactly when the ping succeeded, the first `iconClicked` threw a connection error, and the injection resolved |
| `Dispatch.OnlyMadeCallsMatter` | src/background/index.ts:59-115 | the run depends only on the outcomes of the calls it made |
| `JsString.IncludesIffOccurs` | src/background/index.ts:85 | the `includes` scan holds exactly when the phrase occurs at some index of the message |
| `Scenarios.ClickOnLoadedPage` | src/background/index.ts:59-78 | a click on a tab whose script is loaded sends ping then `iconClicked` and reports success; the page ends up toggled and in step; from an inactive page, the body gets the class and storage holds `true` |
| `Scenarios.ClickOnScriptlessPage` | src/background/index.ts:79-107 | a click on a tab without a script sends ping, then the injection, then one `iconClicked`, and reports the resend's success; only the resend is delivered, and the injected script, restored from storage, ends up toggled and in step |
| `Scenarios.DuplicateSendTogglesAtMostOnce` | src/background/index.ts:66-101 | a run that sends `iconClicked` twice is ping, `iconClicked`, injection, `iconClicked`; the first `iconClicked` threw, so the delivered messages are the ping and, when it resolved, the resend; the feature toggles at most once |
| `Scenarios.DuplicateDeliveryCancels` | src/background/index.ts:66-101 | under the outcomes that make a click send `iconClicked` twice (a successful ping, a connection error on the first `iconClicked`, a resolved injection), if every message the run sends reached the same synced script, the flag would end where it started |
| `Scenarios.DuplicateSendHappens` | src/background/index.ts:61-101 | a run that sends `iconClicked` twice exists: a successful ping, a first `iconClicked` that hits the no-receiver error, and a resolved injection |

## Left out

- The `catch` of the content handler (src/content/index.ts:203-208) is not reachable in the model. Only DOM calls can throw there, and the DOM is not modelled beyond the body class.
- `showNotification` and `createElement`, including the 3-second removal timer. These are real DOM operations.
- Console logging, including the version lookup in the `update` branch of `onInstalled`.
- Failures of `setStorageData` inside `toggleFeature`. The write is fire-and-forget there, and its rejection goes unhandled. The model treats the write as succeeding.
- Storage errors in the background worker's `getData` and `saveData`: their callbacks do not check `lastError`. The write in `onInstalled` has no callback, so its failure goes unobserved. The model treats these reads and writes as succeeding.
- Whether a send that threw reached a script. The model takes a thrown send as undelivered, which is what the no-receiver error means. It does not decide the case of a connection lost after delivery. `Scenarios.DuplicateDeliveryCancels` states what would follow from it.
- Async interleaving. One example: an `iconClicked` handled before start-up's storage read resolves. Each handler is a sequential run.
- The page effects of injecting `content.js` into a page that already runs the script. The second instance and its listener are not modelled. The trace only records the injection call.
- When `initialize` runs (the `DOMContentLoaded` check). The model takes start-up as one step on a fresh page.
- The `tabs.onUpdated` listener (src/background/index.ts:160-164). It only logs.
- JavaScript numbers are integers here. Floating point and `NaN` truthiness are not modelled.
- `generate-icons.js`, `vite.config.ts` and `custom-vite-plugins.ts` are build tooling (rasterising icons, configuring the bundle, deleting files) and are not part of this model.

=== FILE: background.dfy ===
/** The background service worker's storage-facing listeners:
    `runtime.onInstalled` and `runtime.onMessage` (a small key/value protocol
    over the extension's local storage). The icon-click flow is in module
    Dispatch. */
module Background {
  import opened Protocol
  import Storage

  /** The single key the message protocol reads and writes. */
  const DataKey: string := "someKey"

  /** The values of `details.reason` for `runtime.onInstalled`. */
  datatype InstallReason = Install | Update | ChromeUpdate | SharedModuleUpdate

  /** `runtime.onInstalled`: a fresh install records `initialized: true` and
      the install time (`installedAt`, an ISO timestamp supplied by the
      caller, since the clock is not modelled); every other reason, an update
      included, writes nothing. */
  function OnInstalled(store: Storage.Store, reason: InstallReason, now: string): (r: Storage.Store)
    ensures reason != Install ==> r == store
    ensures reason == Install ==>
      && Storage.Get(r, "initialized") == Some(Bool(true))
      && Storage.Get(r, "installedAt") == Some(Str(now))
      && forall k :: k != "initialized" && k != "installedAt" ==> Storage.Get(r, k) == Storage.Get(store, k)
  {
    if reason == Install then
      Storage.SetAll(store, map["initialized" := Bool(true), "installedAt" := Str(now)])
    else
      store
  }

  /** The listener's result: the storage afterwards, the response eventually
      passed to `sendResponse`, and the listener's return value (true keeps
      the channel open because the response comes from a storage callback). */
  datatype Handled = Handled(store: Storage.Store, response: Response, keepOpen: bool)

  /** `runtime.onMessage` of the background worker. `saveData` without a
      `data` field writes `{someKey: undefined}`, which storage drops, so it
      changes nothing. */
  function HandleMessage(store: Storage.Store, msg: Message): (r: Handled)
    ensures WellFormed(r.response)
    // the channel stays open exactly for the two storage actions
    ensures r.keepOpen <==> msg.action in {GetDataAction, SaveDataAction}
    ensures r.response.success <==> r.keepOpen
    ensures msg.action == GetDataAction ==>
      r.store == store && r.response == Response(true, Storage.Get(store, DataKey), None)
    ensures msg.action == SaveDataAction ==>
      && r.response == Response(true, None, None)
      && Storage.Get(r.store, DataKey) == (if msg.data.Some? then msg.data else Storage.Get(store, DataKey))
      && forall k :: k != DataKey ==> Storage.Get(r.store, k) == Storage.Get(store, k)
    ensures !r.keepOpen ==> r.store == store && r.response.error == Some("Unknown action: " + msg.action)
  {
    if msg.action == GetDataAction then
      Handled(store, Succeed(Storage.Get(store, DataKey)), true)
    else if msg.action == SaveDataAction then
      var written := if msg.data.Some? then Storage.Set(store, DataKey, msg.data.value) else store;
      Handled(written, Succeed(None), true)
    else
      Handled(store, UnknownAction(msg.action), false)
  }

  /** `saveData` with a value followed by `getData` answers that value, and
      no key other than `someKey` is touched along the way. */
  lemma SaveThenGet(store: Storage.Store, v: Value, data: Option<Value>)
    ensures var saved := HandleMessage(store, Message(SaveDataAction, Some(v)));
            var got := HandleMessage(saved.store, Message(GetDataAction, data));
            && got.response == Response(true, Some(v), None)
            && got.keepOpen
            && got.store == saved.store
            && forall k :: k != DataKey ==> Storage.Get(got.store, k) == Storage.Get(store, k)
  {
  }
}

=== FILE: content.dfy ===
/** The content script: the page-local `ExtensionState`, the feature toggle
    that keeps the flag, the `extension-active` body class and the stored
    `featureActive` value in step, the message handler, and the start-up
    restore of the flag from storage.

    The page is a value: the handler maps (page, message) to (page,
    response). The body class is a boolean; notifications, logging and the
    rest of the DOM are not part of the page value. */
module Content {
  import opened Protocol
  import Storage

  /** The storage key under which the flag is persisted. */
  const FeatureKey: string := "featureActive"

  /** The `ExtensionState` class. Its field is declared boolean, but start-up
      passes it whatever storage holds (the read is an unchecked cast), so it
      is modelled as an arbitrary value read through its truthiness. */
  datatype ExtensionState = ExtensionState(isActive: Value)

  /** `private isActive = false`. */
  const InitialState: ExtensionState := ExtensionState(Bool(false))

  /** `setActive(value)`: the flag becomes `value`, as given. */
  function SetActive(s: ExtensionState, value: Value): ExtensionState {
    s.(isActive := value)
  }

  /** `toggle()`: `isActive = !isActive`. The result is always a boolean,
      the logical negation of the old flag's truthiness. */
  function Toggle(s: ExtensionState): (r: ExtensionState)
    ensures r.isActive.Bool?
    ensures Truthy(r.isActive) != Truthy(s.isActive)
  {
    ExtensionState(Bool(!Truthy(s.isActive)))
  }

  /** Toggling twice restores a boolean flag. */
  lemma ToggleTwice(s: ExtensionState)
    requires s.isActive.Bool?
    ensures Toggle(Toggle(s)) == s
  {
  }

  /** Toggling twice turns any other flag into the boolean of its truthiness:
      it is not an involution on values restored from storage. */
  lemma ToggleTwiceNormalises(s: ExtensionState)
    ensures Toggle(Toggle(s)).isActive == Bool(Truthy(s.isActive))
  {
  }

  /** What the model tracks of one page: the script's state, whether `body`
      has the class `extension-active`, and the extension's local storage. */
  datatype Page = Page(state: ExtensionState, bodyActive: bool, storage: Storage.Store)

  /** A page right after the script loaded, before start-up has run. */
  function FreshPage(storage: Storage.Store): Page {
    Page(InitialState, false, storage)
  }

  /** The stored flag is absent or a boolean: what this script ever writes. */
  predicate StoredFlagIsBoolean(storage: Storage.Store) {
    Storage.Get(storage, FeatureKey).Some? ==> Storage.Get(storage, FeatureKey).value.Bool?
  }

  /** The three views of the feature agree: the flag is a boolean, the body
      class is present exactly when it is true, and storage holds it (or holds
      nothing while the flag still has its default `false`). */
  predicate Synced(p: Page) {
    && p.state.isActive.Bool?
    && p.bodyActive == p.state.isActive.b
    && match Storage.Get(p.storage, FeatureKey)
       case None => p.state.isActive == Bool(false)
       case Some(v) => v == p.state.isActive
  }

  /** `toggleFeature()`: flip the flag, add or remove the body class to match,
      and persist the new flag. Only `featureActive` is written. */
  function ToggleFeature(p: Page): (r: Page)
    ensures Truthy(r.state.isActive) == !Truthy(p.state.isActive)
    ensures Synced(r)
    ensures Storage.Get(r.storage, FeatureKey) == Some(r.state.isActive)
    ensures forall k :: k != FeatureKey ==> Storage.Get(r.storage, k) == Storage.Get(p.storage, k)
  {
    var s := Toggle(p.state);
    if Truthy(s.isActive) then
      Page(s, true, Storage.Set(p.storage, FeatureKey, Bool(true)))
    else
      Page(s, false, Storage.Set(p.storage, FeatureKey, Bool(false)))
  }

  /** The listener's result: the page afterwards, the response passed to
      `sendResponse`, and the listener's return value (true would keep the
      channel open for a later response). */
  datatype Handled = Handled(page: Page, response: Response, keepOpen: bool)

  /** The `chrome.runtime.onMessage` listener of the content script. */
  function HandleMessage(p: Page, msg: Message): (r: Handled)
    // always answered synchronously, with a well-formed response
    ensures !r.keepOpen && WellFormed(r.response)
    ensures r.response.success <==> msg.action in {PingAction, IconClickedAction, GetStateAction}
    // only iconClicked changes anything
    ensures msg.action != IconClickedAction ==> r.page == p
    ensures msg.action == PingAction ==> r.response == Response(true, Some(Str("pong")), None)
    ensures msg.action == IconClickedAction ==>
      && r.response == Response(true, None, None)
      && r.page.state.isActive == Bool(!Truthy(p.state.isActive))
      && r.page.bodyActive == Truthy(r.page.state.isActive)
      && Storage.Get(r.page.storage, FeatureKey) == Some(r.page.state.isActive)
      && forall k :: k != FeatureKey ==> Storage.Get(r.page.storage, k) == Storage.Get(p.storage, k)
    ensures msg.action == GetStateAction ==>
      r.response == Response(true, Some(Obj(map["isActive" := p.state.isActive])), None)
    ensures !r.response.success ==> r.response.error == Some("Unknown action: " + msg.action)
    ensures Synced(p) ==> Synced(r.page)
  {
    if msg.action == PingAction then
      Handled(p, Succeed(Some(Str("pong"))), false)
    else if msg.action == IconClickedAction then
      Handled(ToggleFeature(p), Succeed(None), false)
    else if msg.action == GetStateAction then
      Handled(p, Succeed(Some(Obj(map["isActive" := p.state.isActive]))), false)
    else
      Handled(p, UnknownAction(msg.action), false)
  }

  /** `initialize()`: read `featureActive`; when a value is stored, make it
      the flag and add the body class if it is truthy. A failed read
      (`chrome.runtime.lastError` set) is caught and changes nothing. */
  function Initialize(p: Page, lastError: Option<string>): (r: Page)
    ensures r.storage == p.storage
    ensures lastError.Some? || FeatureKey !in p.storage ==> r == p
    ensures lastError.None? && FeatureKey in p.storage ==>
      && r.state.isActive == p.storage[FeatureKey]
      && r.bodyActive == (p.bodyActive || Truthy(p.storage[FeatureKey]))
  {
    if lastError.Some? then p
    else
      match Storage.Get(p.storage, FeatureKey)
      case None => p
      case Some(saved) =>
        var s := SetActive(p.state, saved);
        if Truthy(s.isActive) then Page(s, true, p.storage) else Page(s, p.bodyActive, p.storage)
  }

  /** Start-up on a freshly loaded page leaves the three views in step,
      provided storage holds what `toggleFeature` writes. */
  lemma InitializeSyncs(storage: Storage.Store, lastError: Option<string>)
    requires StoredFlagIsBoolean(storage)
    ensures Synced(Initialize(FreshPage(storage), lastError)) <==>
      (lastError.None? || Storage.Get(storage, FeatureKey) != Some(Bool(true)))
  {
  }

  /** The page after the script handled `msgs` in order. */
  function Receive(p: Page, msgs: seq<Message>): Page
    decreases |msgs|
  {
    if |msgs| == 0 then p else Receive(HandleMessage(p, msgs[0]).page, msgs[1..])
  }

  /** How many of `msgs` are `iconClicked`. */
  function Toggles(msgs: seq<Message>): nat
    decreases |msgs|
  {
    if |msgs| == 0 then 0
    else (if msgs[0].action == IconClickedAction then 1 else 0) + Toggles(msgs[1..])
  }

  /** Any sequence of messages keeps the three views in step. */
  lemma {:induction false} ReceiveKeepsSynced(p: Page, msgs: seq<Message>)
    requires Synced(p)
    ensures Synced(Receive(p, msgs))
    decreases |msgs|
  {
    if |msgs| > 0 {
      ReceiveKeepsSynced(HandleMessage(p, msgs[0]).page, msgs[1..]);
    }
  }

  /** The flag after a sequence of messages depends only on how many of them
      are `iconClicked`: it is flipped exactly when that number is odd. So a
      duplicated `iconClicked` undoes itself instead of being harmless. */
  lemma {:induction false} ReceiveFlipsByParity(p: Page, msgs: seq<Message>)
    requires p.state.isActive.Bool?
    ensures Receive(p, msgs).state.isActive == Bool(p.state.isActive.b != (Toggles(msgs) % 2 == 1))
    decreases |msgs|
  {
    if |msgs| > 0 {
      ReceiveFlipsByParity(HandleMessage(p, msgs[0]).page, msgs[1..]);
    }
  }
}

=== FILE: dispatch.dfy ===
/** The `action.onClicked` listener of the background worker: a
    presence-checked dispatch of `iconClicked` to the clicked tab.

    The platform is an oracle: `oracle(k)` is the outcome of the k-th
    platform call the listener makes (`tabs.sendMessage` or
    `scripting.executeScript`). The listener is a function from the tab and
    the oracle to the trace of calls it made and the way the run ended, so
    bounds, ordering and "no call made" are properties of that trace. */
module Dispatch {
  import opened Protocol
  import opened JsString

  /** The parts of `chrome.tabs.Tab` the listener reads. */
  datatype Tab = Tab(id: Option<int>, url: Option<string>)

  /** URL schemes of pages content scripts cannot run on. */
  const RestrictedPrefixes: seq<string> :=
    ["chrome://", "chrome-extension://", "edge://", "moz-extension://", "about:"]

  /** The phrase that marks a missing receiving end in a thrown error. */
  const ConnectionPhrase: string := "Could not establish connection"

  /** The error the platform raises when the tab has no content script. */
  const NoReceiverMessage: string := ConnectionPhrase + ". Receiving end does not exist."

  /** The error V8 raises for `response.success` on an undefined reply
      (spelt in short pieces so that its characters can be indexed). */
  const UndefinedReplyMessage: string :=
    "Cannot read " + "properties of " + "undefined " + "(reading " + "'success')"

  /** The file injected when the content script is missing. */
  const ContentScriptFile: string := "content.js"

  /** A value thrown by an awaited call: an `Error` with a message, or some
      other value (which fails `instanceof Error`). */
  datatype Thrown = Error(message: string) | NotAnError

  /** What the platform did with one call. For `executeScript` only the
      distinction between resolving and throwing matters. */
  datatype Outcome = Resolved(reply: Option<Response>) | Threw(thrown: Thrown)

  /** A platform call made by the listener. */
  datatype Call =
    | SendMessage(tabId: int, message: Message)
    | ExecuteScript(tabId: int, files: seq<string>)

  function Ping(id: int): Call { SendMessage(id, Message(PingAction, None)) }
  function IconClicked(id: int): Call { SendMessage(id, Message(IconClickedAction, None)) }
  function Inject(id: int): Call { ExecuteScript(id, [ContentScriptFile]) }

  /** How a run ended. */
  datatype End =
    | NoTabId                        // `!tab.id`
    | RestrictedPage                 // the URL guard refused the tab
    | NotReady                       // the ping reply was missing or unsuccessful
    | Delivered(response: Response)  // `iconClicked` answered on the direct path
    | Abandoned(thrown: Thrown)      // an error other than a missing connection
    | Recovered(response: Response)  // `iconClicked` answered after injection
    | RecoveryFailed(thrown: Thrown) // the injection or the resend threw

  datatype Run = Run(calls: seq<Call>, end: End)

  /** `!tab.id`: an absent id and the falsy id 0 are both refused. */
  predicate HasTabId(tab: Tab) {
    tab.id.Some? && tab.id.value != 0
  }

  /** The restricted-URL guard. An undefined or empty URL passes it. */
  predicate IsRestricted(url: Option<string>) {
    && url.Some?
    && url.value != ""
    && (|| StartsWith(url.value, "chrome://")
        || StartsWith(url.value, "chrome-extension://")
        || StartsWith(url.value, "edge://")
        || StartsWith(url.value, "moz-extension://")
        || StartsWith(url.value, "about:"))
  }

  /** The guard refuses exactly the URLs that start with one of the
      restricted prefixes; the emptiness test adds nothing. */
  lemma IsRestrictedIffPrefix(url: Option<string>)
    ensures IsRestricted(url) <==>
      url.Some? && exists i :: 0 <= i < |RestrictedPrefixes| && StartsWith(url.value, RestrictedPrefixes[i])
  {
    if url.Some? {
      var u := url.value;
      if StartsWith(u, "chrome://") {
        assert StartsWith(u, RestrictedPrefixes[0]);
      } else if StartsWith(u, "chrome-extension://") {
        assert StartsWith(u, RestrictedPrefixes[1]);
      } else if StartsWith(u, "edge://") {
        assert StartsWith(u, RestrictedPrefixes[2]);
      } else if StartsWith(u, "moz-extension://") {
        assert StartsWith(u, RestrictedPrefixes[3]);
      } else if StartsWith(u, "about:") {
        assert StartsWith(u, RestrictedPrefixes[4]);
      }
      forall i | 0 <= i < |RestrictedPrefixes| && StartsWith(u, RestrictedPrefixes[i])
        ensures IsRestricted(url)
      {
        assert i in {0, 1, 2, 3, 4};
      }
    }
  }

  /** The test in the `catch` block: an `Error` whose message includes the
      connection phrase. */
  predicate IsConnectionError(t: Thrown) {
    t.Error? && Includes(t.message, ConnectionPhrase)
  }

  /** The TypeError of an undefined reply never counts as a missing
      connection, so it does not lead to injection. */
  lemma UndefinedReplyIsNotConnectionError()
    ensures !IsConnectionError(Error(UndefinedReplyMessage))
  {
    var s := UndefinedReplyMessage;
    assert s[1] == 'a' && ConnectionPhrase[1] == 'o';
    assert s[..|ConnectionPhrase|][1] != ConnectionPhrase[1];
    forall k | 0 <= k < |s[1..]| ensures s[1..][k] != ConnectionPhrase[0] {
      assert s[1..][k] == s[k + 1];
    }
    NotIncludedWithoutFirstChar(s[1..], ConnectionPhrase);
  }

  /** The platform's no-receiver error is recognised as a missing
      connection. */
  lemma NoReceiverIsConnectionError()
    ensures IsConnectionError(Error(NoReceiverMessage))
  {
    assert NoReceiverMessage[..|ConnectionPhrase|] == ConnectionPhrase;
  }

  /** The `try` block so far: the calls made, and either how the run ended
      or what was thrown out of it. */
  datatype Step = Settled(end: End) | Raised(thrown: Thrown)
  datatype Attempt = Attempt(calls: seq<Call>, step: Step)

  /** The `try` block: ping, and send `iconClicked` if the ping reply is
      present and successful. Reading `.success` of an undefined
      `iconClicked` reply throws inside the block. */
  function DirectAttempt(id: int, oracle: nat -> Outcome): Attempt {
    match oracle(0)
    case Threw(t) => Attempt([Ping(id)], Raised(t))
    case Resolved(ping) =>
      if !(ping.Some? && ping.value.success) then Attempt([Ping(id)], Settled(NotReady))
      else
        match oracle(1)
        case Threw(t) => Attempt([Ping(id), IconClicked(id)], Raised(t))
        case Resolved(None) => Attempt([Ping(id), IconClicked(id)], Raised(Error(UndefinedReplyMessage)))
        case Resolved(Some(response)) => Attempt([Ping(id), IconClicked(id)], Settled(Delivered(response)))
  }

  /** The inner `try` of the `catch` block, after `calls` were made: inject
      the content script, then resend `iconClicked` once. Anything thrown
      here is caught and ends the run. */
  function Recover(id: int, calls: seq<Call>, oracle: nat -> Outcome): (r: Run)
    ensures r.calls == calls + [Inject(id)] || r.calls == calls + [Inject(id), IconClicked(id)]
  {
    match oracle(|calls|)
    case Threw(t) => Run(calls + [Inject(id)], RecoveryFailed(t))
    case Resolved(_) =>
      var resent := calls + [Inject(id), IconClicked(id)];
      match oracle(|calls| + 1)
      case Threw(t) => Run(resent, RecoveryFailed(t))
      case Resolved(None) => Run(resent, RecoveryFailed(Error(UndefinedReplyMessage)))
      case Resolved(Some(response)) => Run(resent, Recovered(response))
  }

  /** The only call sequences a non-refused click can produce: a ping,
      then possibly `iconClicked`, then possibly the injection and one
      resend. */
  function Shapes(id: int): set<seq<Call>> {
    var (p, i, x) := (Ping(id), IconClicked(id), Inject(id));
    {[p], [p, i], [p, x], [p, x, i], [p, i, x], [p, i, x, i]}
  }

  /** The `action.onClicked` listener. */
  function OnClicked(tab: Tab, oracle: nat -> Outcome): (run: Run)
    // refused tabs get no call at all; every other click starts with a ping
    ensures run.calls == [] <==> !HasTabId(tab) || IsRestricted(tab.url)
    ensures run.calls != [] ==> run.calls in Shapes(tab.id.value)
  {
    if !HasTabId(tab) then Run([], NoTabId)
    else if IsRestricted(tab.url) then Run([], RestrictedPage)
    else
      var id := tab.id.value;
      var attempt := DirectAttempt(id, oracle);
      match attempt.step
      case Settled(end) => Run(attempt.calls, end)
      case Raised(t) =>
        if IsConnectionError(t) then
          RecoveryShapes(id, attempt.calls, oracle);
          Recover(id, attempt.calls, oracle)
        else Run(attempt.calls, Abandoned(t))
  }

  /** Recovery after a ping, or after a ping and one `iconClicked`, stays
      within the shapes a click can produce. */
  lemma RecoveryShapes(id: int, calls: seq<Call>, oracle: nat -> Outcome)
    requires calls == [Ping(id)] || calls == [Ping(id), IconClicked(id)]
    ensures Recover(id, calls, oracle).calls in Shapes(id)
  {
    assert [Ping(id)] + [Inject(id)] == [Ping(id), Inject(id)];
    assert [Ping(id)] + [Inject(id), IconClicked(id)] == [Ping(id), Inject(id), IconClicked(id)];
    assert [Ping(id), IconClicked(id)] + [Inject(id)] == [Ping(id), IconClicked(id), Inject(id)];
    assert [Ping(id), IconClicked(id)] + [Inject(id), IconClicked(id)] == [Ping(id), IconClicked(id), Inject(id), IconClicked(id)];
  }

  /** No loop: a click makes at most one ping, one injection and two
      `iconClicked` sends, all to the clicked tab. */
  lemma CallBounds(tab: Tab, oracle: nat -> Outcome)
    requires HasTabId(tab)
    ensures var run := OnClicked(tab, oracle);
      && |run.calls| <= 4
      && (forall c :: c in run.calls ==> c in {Ping(tab.id.value), IconClicked(tab.id.value), Inject(tab.id.value)})
      && multiset(run.calls)[Ping(tab.id.value)] <= 1
      && multiset(run.calls)[Inject(tab.id.value)] <= 1
      && multiset(run.calls)[IconClicked(tab.id.value)] <= 2
  {
  }

  /** `iconClicked` goes out on the direct path only after a present,
      successful ping reply; any other ping reply ends the run. */
  lemma PingGatesIconClicked(tab: Tab, oracle: nat -> Outcome)
    requires HasTabId(tab) && !IsRestricted(tab.url)
    ensures var run := OnClicked(tab, oracle);
      && (run.calls[1..] != [] && run.calls[1] == IconClicked(tab.id.value) <==>
            oracle(0).Resolved? && oracle(0).reply.Some? && oracle(0).reply.value.success)
      && (oracle(0).Resolved? && !(oracle(0).reply.Some? && oracle(0).reply.value.success) ==>
            run == Run([Ping(tab.id.value)], NotReady))
  {
  }

  /** The content script is injected only right after a call threw an
      `Error` mentioning the connection phrase; a thrown value that is not
      such an error ends the run on the spot. */
  lemma InjectionOnlyOnConnectionError(tab: Tab, oracle: nat -> Outcome)
    ensures var run := OnClicked(tab, oracle);
      && (forall j :: 0 <= j < |run.calls| && run.calls[j].ExecuteScript? ==>
            j >= 1 && oracle(j - 1).Threw? && IsConnectionError(oracle(j - 1).thrown))
      && (forall j :: 0 <= j < |run.calls| && oracle(j).Threw? ==>
            j == |run.calls| - 1 || (IsConnectionError(oracle(j).thrown) && run.calls[j + 1].ExecuteScript?))
  {
    UndefinedReplyIsNotConnectionError();
  }

  /** After the injection resolves exactly one `iconClicked` is resent and
      the run ends; if the injection throws nothing more is sent. */
  lemma AtMostOneRetry(tab: Tab, oracle: nat -> Outcome)
    ensures var run := OnClicked(tab, oracle);
      forall j :: 0 <= j < |run.calls| && run.calls[j].ExecuteScript? ==>
        if oracle(j).Resolved? then |run.calls| == j + 2 && run.calls[j + 1] == IconClicked(tab.id.value)
        else |run.calls| == j + 1
  {
  }

  /** When the ping fails with any connection error (the platform's
      no-receiver error among them) the run pings, injects, and resends
      `iconClicked` once if the injection resolves. */
  lemma MissingScriptIsInjected(tab: Tab, oracle: nat -> Outcome)
    requires HasTabId(tab) && !IsRestricted(tab.url)
    requires oracle(0).Threw? && IsConnectionError(oracle(0).thrown)
    ensures var id := tab.id.value;
      OnClicked(tab, oracle).calls ==
        if oracle(1).Resolved? then [Ping(id), Inject(id), IconClicked(id)] else [Ping(id), Inject(id)]
  {
  }

  /** Only the final attempt is reported, and it is always reported: a
      reply that ends the run is the reply to the last call, a present reply
      to a final `iconClicked` is what the run reports, and an error that
      ends it is the last call's own (or the TypeError of its undefined
      reply). */
  lemma ReportsFinalAttempt(tab: Tab, oracle: nat -> Outcome)
    ensures var run := OnClicked(tab, oracle);
      && (run.end.Delivered? || run.end.Recovered? ==>
            oracle(|run.calls| - 1) == Resolved(Some(run.end.response)))
      && (HasTabId(tab) ==> (run.end.Recovered? || run.end.RecoveryFailed? <==> Inject(tab.id.value) in run.calls))
      && (run.end.Abandoned? || run.end.RecoveryFailed? ==>
            oracle(|run.calls| - 1) == Threw(run.end.thrown)
            || (oracle(|run.calls| - 1) == Resolved(None) && run.end.thrown == Error(UndefinedReplyMessage)))
      && (HasTabId(tab) && |run.calls| > 0 && run.calls[|run.calls| - 1] == IconClicked(tab.id.value)
          && oracle(|run.calls| - 1).Resolved? && oracle(|run.calls| - 1).reply.Some? ==>
            var r := oracle(|run.calls| - 1).reply.value;
            run.end == if Inject(tab.id.value) in run.calls then Recovered(r) else Delivered(r))
  {
  }

  /** `iconClicked` is sent twice exactly when the ping succeeded, the first
      `iconClicked` then failed with a connection error, and the injection
      resolved. The action is a toggle, so this path is not harmless. */
  lemma TwoIconClickedIff(tab: Tab, oracle: nat -> Outcome)
    requires HasTabId(tab) && !IsRestricted(tab.url)
    ensures multiset(OnClicked(tab, oracle).calls)[IconClicked(tab.id.value)] == 2 <==>
      && oracle(0).Resolved? && oracle(0).reply.Some? && oracle(0).reply.value.success
      && oracle(1).Threw? && IsConnectionError(oracle(1).thrown)
      && oracle(2).Resolved?
  {
    var id := tab.id.value;
    var run := OnClicked(tab, oracle);
    UndefinedReplyIsNotConnectionError();
    ResendShapeOnly(id, run.calls);
    match oracle(0)
    case Threw(_) =>
    case Resolved(ping) =>
      if ping.Some? && ping.value.success {
        match oracle(1)
        case Resolved(_) =>
        case Threw(t) =>
          if IsConnectionError(t) {
            assert run == Recover(id, [Ping(id), IconClicked(id)], oracle);
          }
      }
  }

  /** Among the shapes a click can produce, only the resend trace sends
      `iconClicked` twice. */
  lemma ResendShapeOnly(id: int, calls: seq<Call>)
    requires calls == [] || calls in Shapes(id)
    ensures multiset(calls)[IconClicked(id)] == 2 <==> calls == [Ping(id), IconClicked(id), Inject(id), IconClicked(id)]
  {
  }

  /** The run depends only on the outcomes of the calls it made: two oracles
      that agree on those calls give the same run. */
  lemma OnlyMadeCallsMatter(tab: Tab, oracle: nat -> Outcome, other: nat -> Outcome)
    requires forall k :: 0 <= k < |OnClicked(tab, oracle).calls| ==> oracle(k) == other(k)
    ensures OnClicked(tab, other) == OnClicked(tab, oracle)
  {
  }
}

=== FILE: jsstring.dfy ===
/** The two JavaScript string tests the background worker relies on:
    `String.prototype.startsWith` and `String.prototype.includes`. */
module JsString {

  /** `s.startsWith(prefix)`. */
  predicate StartsWith(s: string, prefix: string) {
    |prefix| <= |s| && s[..|prefix|] == prefix
  }

  /** `sub` occurs in `s` starting at index `i`. */
  predicate OccursAt(s: string, sub: string, i: int) {
    0 <= i && i + |sub| <= |s| && s[i..i + |sub|] == sub
  }

  /** `s.includes(sub)`, computed by scanning `s` from the left. */
  predicate Includes(s: string, sub: string)
    decreases |s|
  {
    StartsWith(s, sub) || (|s| > 0 && Includes(s[1..], sub))
  }

  /** Every successful scan has found an occurrence. */
  lemma {:induction false} IncludesHasOccurrence(s: string, sub: string)
    requires Includes(s, sub)
    ensures exists i :: OccursAt(s, sub, i)
    decreases |s|
  {
    if StartsWith(s, sub) {
      assert OccursAt(s, sub, 0);
    } else {
      IncludesHasOccurrence(s[1..], sub);
      var j :| OccursAt(s[1..], sub, j);
      assert s[j + 1..j + 1 + |sub|] == s[1..][j..j + |sub|];
      assert OccursAt(s, sub, j + 1);
    }
  }

  /** Every occurrence is found by the scan. */
  lemma {:induction false} OccurrenceIsIncluded(s: string, sub: string, i: int)
    requires OccursAt(s, sub, i)
    ensures Includes(s, sub)
    decreases i
  {
    if i > 0 {
      assert s[1..][i - 1..i - 1 + |sub|] == s[i..i + |sub|];
      OccurrenceIsIncluded(s[1..], sub, i - 1);
    }
  }

  /** The scan agrees with the positional definition of a substring:
      `s.includes(sub)` exactly when `sub` occurs at some index of `s`. */
  lemma IncludesIffOccurs(s: string, sub: string)
    ensures Includes(s, sub) <==> exists i :: OccursAt(s, sub, i)
  {
    if Includes(s, sub) {
      IncludesHasOccurrence(s, sub);
    }
    if exists i :: OccursAt(s, sub, i) {
      var i :| OccursAt(s, sub, i);
      OccurrenceIsIncluded(s, sub, i);
    }
  }

  /** A non-empty string whose first character does not occur in `s` is not
      a substring of `s`. */
  lemma {:induction false} NotIncludedWithoutFirstChar(s: string, sub: string)
    requires |sub| > 0
    requires forall k :: 0 <= k < |s| ==> s[k] != sub[0]
    ensures !Includes(s, sub)
    decreases |s|
  {
    if |s| > 0 {
      assert |sub| > |s| || s[..|sub|][0] == s[0];
      NotIncludedWithoutFirstChar(s[1..], sub);
    }
  }
}

=== FILE: protocol.dfy ===
/** The message shapes shared by the background service worker and the
    content script: a request `{action, data?}` and a response
    `{success, data?, error?}`, plus the JSON values that travel in them. */
module Protocol {

  /** `undefined` (None) versus a present value (Some). */
  datatype Option<+T> = None | Some(value: T)

  /** A JSON-serialisable value as carried by messages and kept in storage.
      Numbers are integers here; floating point is not modelled. */
  datatype Value =
    | Null
    | Bool(b: bool)
    | Num(n: int)
    | Str(s: string)
    | Arr(items: seq<Value>)
    | Obj(fields: map<string, Value>)

  /** JavaScript truthiness of a value (as used by `if (x)` and `!x`). */
  predicate Truthy(v: Value) {
    match v
    case Null => false
    case Bool(b) => b
    case Num(n) => n != 0
    case Str(s) => s != ""
    case Arr(_) => true
    case Obj(_) => true
  }

  /** A request: `{ action: string, data?: unknown }`. */
  datatype Message = Message(action: string, data: Option<Value>)

  /** A response: `{ success: boolean, data?: unknown, error?: string }`. */
  datatype Response = Response(success: bool, data: Option<Value>, error: Option<string>)

  const PingAction: string := "ping"
  const IconClickedAction: string := "iconClicked"
  const GetStateAction: string := "getState"
  const GetDataAction: string := "getData"
  const SaveDataAction: string := "saveData"

  /** The response-shape invariant both handlers keep: a success carries no
      error; a failure carries an error and no data. */
  predicate WellFormed(r: Response) {
    && (r.success ==> r.error.None?)
    && (!r.success ==> r.error.Some? && r.data.None?)
  }

  /** A successful response carrying `data` (or no data at all). */
  function Succeed(data: Option<Value>): (r: Response)
    ensures WellFormed(r) && r.success
    ensures r.data == data
  {
    Response(true, data, None)
  }

  /** The answer both handlers give to an action they do not know:
      `{success: false, error: "Unknown action: " + action}`. */
  function UnknownAction(action: string): (r: Response)
    ensures WellFormed(r) && !r.success
    ensures r.error.Some? && |r.error.value| == |"Unknown action: "| + |action|
    ensures r.error.Some? && r.error.value[..|"Unknown action: "|] == "Unknown action: "
    ensures r.error.Some? && r.error.value[|"Unknown action: "|..] == action
  {
    Response(false, None, Some("Unknown action: " + action))
  }

  /** Distinct unknown actions get distinct answers: the error message
      identifies the action that was refused. */
  lemma UnknownActionInjective(a: string, b: string)
    ensures UnknownAction(a) == UnknownAction(b) <==> a == b
  {
  }
}

=== FILE: scenarios.dfy ===
/** The click flow run against the content script: the platform's replies
    are the content script's own responses, and a message reaches a script
    exactly when its send resolved, so the effect of a click on the page can
    be followed end to end. */
module Scenarios {
  import opened Protocol
  import Storage
  import Content
  import Dispatch

  /** Every message a trace sends, in order, whether or not a script
      received it; injections send none. */
  function Sent(calls: seq<Dispatch.Call>): seq<Message>
    decreases |calls|
  {
    if |calls| == 0 then []
    else match calls[0]
      case SendMessage(_, m) => [m] + Sent(calls[1..])
      case ExecuteScript(_, _) => Sent(calls[1..])
  }

  /** Sent messages of a trace, one call at a time. */
  lemma SentCons(c: Dispatch.Call, rest: seq<Dispatch.Call>)
    ensures Sent([c] + rest) == (if c.SendMessage? then [c.message] else []) + Sent(rest)
  {
  }

  /** The messages a trace delivered to a script, in order: those of the
      sends whose outcome resolved. A send that threw reached no script
      (the no-receiver error says so). */
  function Delivered(calls: seq<Dispatch.Call>, oracle: nat -> Dispatch.Outcome): seq<Message>
    decreases |calls|
  {
    if |calls| == 0 then []
    else
      var last := |calls| - 1;
      Delivered(calls[..last], oracle)
        + (if calls[last].SendMessage? && oracle(last).Resolved? then [calls[last].message] else [])
  }

  /** Delivered messages of a trace, one call at a time. */
  lemma DeliveredSnoc(calls: seq<Dispatch.Call>, c: Dispatch.Call, oracle: nat -> Dispatch.Outcome)
    ensures Delivered(calls + [c], oracle) ==
      Delivered(calls, oracle) + (if c.SendMessage? && oracle(|calls|).Resolved? then [c.message] else [])
  {
  }

  /** The platform of a tab whose content script is loaded on page `p`:
      every message is answered by that script. The ping leaves the page
      unchanged, so the first two replies are both computed on `p`. */
  function LoadedTab(p: Content.Page): nat -> Dispatch.Outcome {
    k => Dispatch.Resolved(Some(
      Content.HandleMessage(p, Message(if k == 0 then PingAction else IconClickedAction, None)).response))
  }

  /** A click on a tab whose script is loaded pings, sends `iconClicked`
      once, reports success, and leaves the page toggled with the body class
      and the stored flag in step. From an inactive page this adds the class
      and stores `true`. */
  lemma ClickOnLoadedPage(tab: Dispatch.Tab, p: Content.Page)
    requires Dispatch.HasTabId(tab) && !Dispatch.IsRestricted(tab.url)
    requires Content.Synced(p)
    ensures var run := Dispatch.OnClicked(tab, LoadedTab(p));
      var after := Content.Receive(p, Delivered(run.calls, LoadedTab(p)));
      && run.calls == [Dispatch.Ping(tab.id.value), Dispatch.IconClicked(tab.id.value)]
      && run.end == Dispatch.Delivered(Response(true, None, None))
      && after.state.isActive == Bool(!p.state.isActive.b)
      && Content.Synced(after)
      && (p.state.isActive == Bool(false) ==>
            after.bodyActive && Storage.Get(after.storage, Content.FeatureKey) == Some(Bool(true)))
  {
    var id := tab.id.value;
    var run := Dispatch.OnClicked(tab, LoadedTab(p));
    var ping := Content.HandleMessage(p, Message(PingAction, None));
    assert ping.response == Response(true, Some(Str("pong")), None);
    var click := Content.HandleMessage(p, Message(IconClickedAction, None));
    assert click.response == Response(true, None, None);
    assert LoadedTab(p)(0) == Dispatch.Resolved(Some(ping.response));
    assert LoadedTab(p)(1) == Dispatch.Resolved(Some(click.response));
    assert run.calls == [Dispatch.Ping(id)] + [Dispatch.IconClicked(id)];
    DeliveredSnoc([], Dispatch.Ping(id), LoadedTab(p));
    assert [] + [Dispatch.Ping(id)] == [Dispatch.Ping(id)];
    DeliveredSnoc([Dispatch.Ping(id)], Dispatch.IconClicked(id), LoadedTab(p));
    var msgs := Delivered(run.calls, LoadedTab(p));
    assert msgs == [Message(PingAction, None), Message(IconClickedAction, None)];
    assert msgs[1..] == [Message(IconClickedAction, None)];
    assert msgs[1..][1..] == [];
    assert Content.Receive(p, msgs) == Content.Receive(click.page, []);
  }

  /** The platform of a tab without a content script: the ping finds no
      receiver, the injection resolves, and the freshly injected script
      (which restored the flag from `storage` at start-up) answers the
      resend. */
  function ScriptlessTab(storage: Storage.Store): nat -> Dispatch.Outcome {
    var injected := Content.Initialize(Content.FreshPage(storage), None);
    k => if k == 0 then Dispatch.Threw(Dispatch.Error(Dispatch.NoReceiverMessage))
         else if k == 1 then Dispatch.Resolved(None)
         else Dispatch.Resolved(Some(Content.HandleMessage(injected, Message(IconClickedAction, None)).response))
  }

  /** A click on a tab without a content script pings, injects, resends
      `iconClicked` once, and reports the resend's success. The only message
      delivered is the resend, so the injected script, restored from
      storage, ends up toggled once and in step. */
  lemma ClickOnScriptlessPage(tab: Dispatch.Tab, storage: Storage.Store)
    requires Dispatch.HasTabId(tab) && !Dispatch.IsRestricted(tab.url)
    requires Content.StoredFlagIsBoolean(storage)
    ensures var run := Dispatch.OnClicked(tab, ScriptlessTab(storage));
      var restored := Content.Initialize(Content.FreshPage(storage), None);
      var delivered := Delivered(run.calls, ScriptlessTab(storage));
      var after := Content.Receive(restored, delivered);
      && run.calls == [Dispatch.Ping(tab.id.value), Dispatch.Inject(tab.id.value), Dispatch.IconClicked(tab.id.value)]
      && run.end == Dispatch.Recovered(Response(true, None, None))
      && delivered == [Message(IconClickedAction, None)]
      && after.state.isActive == Bool(!restored.state.isActive.b)
      && Content.Synced(after)
  {
    Dispatch.NoReceiverIsConnectionError();
    var id := tab.id.value;
    var run := Dispatch.OnClicked(tab, ScriptlessTab(storage));
    var oracle := ScriptlessTab(storage);
    assert run.calls == [Dispatch.Ping(id), Dispatch.Inject(id)] + [Dispatch.IconClicked(id)];
    DeliveredSnoc([], Dispatch.Ping(id), oracle);
    assert [] + [Dispatch.Ping(id)] == [Dispatch.Ping(id)];
    DeliveredSnoc([Dispatch.Ping(id)], Dispatch.Inject(id), oracle);
    DeliveredSnoc([Dispatch.Ping(id), Dispatch.Inject(id)], Dispatch.IconClicked(id), oracle);
    Content.InitializeSyncs(storage, None);
    var restored := Content.Initialize(Content.FreshPage(storage), None);
    var toggled := Content.HandleMessage(restored, Message(IconClickedAction, None)).page;
    assert Content.Receive(restored, [Message(IconClickedAction, None)]) == Content.Receive(toggled, []);
  }

  /** The sequence of the run that sends `iconClicked` twice. */
  function ResendTrace(id: int): seq<Dispatch.Call> {
    [Dispatch.Ping(id), Dispatch.IconClicked(id), Dispatch.Inject(id), Dispatch.IconClicked(id)]
  }

  /** A run that sends `iconClicked` twice toggles a script at most once:
      the first `iconClicked` threw a connection error and reached no script,
      so the messages delivered are the ping and, when it resolved, the
      resend. */
  lemma DuplicateSendTogglesAtMostOnce(tab: Dispatch.Tab, oracle: nat -> Dispatch.Outcome)
    requires Dispatch.HasTabId(tab) && !Dispatch.IsRestricted(tab.url)
    requires multiset(Dispatch.OnClicked(tab, oracle).calls)[Dispatch.IconClicked(tab.id.value)] == 2
    ensures var run := Dispatch.OnClicked(tab, oracle);
      && run.calls == ResendTrace(tab.id.value)
      && Delivered(run.calls, oracle) ==
           [Message(PingAction, None)] + (if oracle(3).Resolved? then [Message(IconClickedAction, None)] else [])
      && Content.Toggles(Delivered(run.calls, oracle)) == (if oracle(3).Resolved? then 1 else 0)
  {
    var id := tab.id.value;
    var run := Dispatch.OnClicked(tab, oracle);
    var (p, i, x) := (Dispatch.Ping(id), Dispatch.IconClicked(id), Dispatch.Inject(id));
    Dispatch.ResendShapeOnly(id, run.calls);
    Dispatch.TwoIconClickedIff(tab, oracle);
    assert run.calls == ResendTrace(id);
    assert run.calls == [p, i, x] + [i];
    assert [p, i, x] == [p, i] + [x];
    assert [p, i] == [p] + [i];
    assert [p] == [] + [p];
    DeliveredSnoc([], p, oracle);
    DeliveredSnoc([p], i, oracle);
    DeliveredSnoc([p, i], x, oracle);
    DeliveredSnoc([p, i, x], i, oracle);
    var msgs := Delivered(run.calls, oracle);
    assert msgs == [Message(PingAction, None)] + (if oracle(3).Resolved? then [Message(IconClickedAction, None)] else []);
    assert msgs[0].action != IconClickedAction;
    if oracle(3).Resolved? {
      assert msgs[1..] == [Message(IconClickedAction, None)];
      assert msgs[1..][1..] == [];
      assert Content.Toggles(msgs[1..]) == 1;
    } else {
      assert msgs[1..] == [];
    }
  }

  /** What the retry path would do if a send could throw a connection error
      after its message had reached the script (the model does not decide
      that case): both `iconClicked` messages would toggle the same script,
      and the feature would end exactly where it started. */
  lemma DuplicateDeliveryCancels(tab: Dispatch.Tab, oracle: nat -> Dispatch.Outcome, p: Content.Page)
    requires Dispatch.HasTabId(tab) && !Dispatch.IsRestricted(tab.url)
    // exactly the outcomes under which `iconClicked` is sent twice (Dispatch.TwoIconClickedIff)
    requires oracle(0).Resolved? && oracle(0).reply.Some? && oracle(0).reply.value.success
    requires oracle(1).Threw? && Dispatch.IsConnectionError(oracle(1).thrown)
    requires oracle(2).Resolved?
    requires Content.Synced(p)
    ensures Content.Receive(p, Sent(Dispatch.OnClicked(tab, oracle).calls)).state == p.state
  {
    var id := tab.id.value;
    Dispatch.TwoIconClickedIff(tab, oracle);
    Dispatch.ResendShapeOnly(id, Dispatch.OnClicked(tab, oracle).calls);
    ResendTraceCancels(id, p);
  }

  /** Handling every message of the resend trace — a ping and two
      `iconClicked` — leaves a synced script's state as it was. */
  lemma ResendTraceCancels(id: int, p: Content.Page)
    requires Content.Synced(p)
    ensures Content.Receive(p, Sent(ResendTrace(id))).state == p.state
  {
    var (ping, i, x) := (Dispatch.Ping(id), Dispatch.IconClicked(id), Dispatch.Inject(id));
    assert ResendTrace(id) == [ping] + [i, x, i];
    SentCons(i, []);
    assert [i] + [] == [i];
    SentCons(x, [i]);
    SentCons(i, [x, i]);
    SentCons(ping, [i, x, i]);
    var msgs := Sent(ResendTrace(id));
    assert msgs == [Message(PingAction, None), Message(IconClickedAction, None), Message(IconClickedAction, None)];
    assert Content.Toggles(msgs) == 2 by {
      assert msgs[1..] == [Message(IconClickedAction, None), Message(IconClickedAction, None)];
      assert msgs[1..][1..] == [Message(IconClickedAction, None)];
      assert msgs[1..][1..][1..] == [];
      assert Content.Toggles(msgs[1..][1..]) == 1;
      assert Content.Toggles(msgs[1..]) == 2;
      assert msgs[0].action != IconClickedAction;
    }
    Content.ReceiveFlipsByParity(p, msgs);
  }

  /** A run that sends `iconClicked` twice exists: the ping is answered, the first `iconClicked` fails
      with the no-receiver error, and the injection resolves. */
  lemma DuplicateSendHappens(tab: Dispatch.Tab, reply: Response)
    requires Dispatch.HasTabId(tab) && !Dispatch.IsRestricted(tab.url)
    requires reply.success
    ensures var oracle: nat -> Dispatch.Outcome :=
        k => if k == 1 then Dispatch.Threw(Dispatch.Error(Dispatch.NoReceiverMessage)) else Dispatch.Resolved(Some(reply));
      multiset(Dispatch.OnClicked(tab, oracle).calls)[Dispatch.IconClicked(tab.id.value)] == 2
  {
    Dispatch.NoReceiverIsConnectionError();
  }
}

=== FILE: storage.dfy ===
/** `chrome.storage.local` as an abstract key/value map. Reads and writes
    are the `getStorageData` / `setStorageData` helpers of the content
    script and the direct `chrome.storage.local` calls of the background
    worker; asynchrony and platform failures are outside this module. */
module Storage {
  import opened Protocol

  type Store = map<string, Value>

  /** `getStorageData(key)`: the stored value, or undefined when absent. */
  function Get(store: Store, key: string): (r: Option<Value>)
    ensures r.Some? <==> key in store
    ensures r.Some? ==> r.value == store[key]
  {
    if key in store then Some(store[key]) else None
  }

  /** `setStorageData(key, value)`: `key` now holds `value`, every other key
      keeps its value, and no key is dropped. */
  function Set(store: Store, key: string, value: Value): (r: Store)
    ensures Get(r, key) == Some(value)
    ensures forall k :: k != key ==> Get(r, k) == Get(store, k)
    ensures r.Keys == store.Keys + {key}
  {
    store[key := value]
  }

  /** `chrome.storage.local.set(items)`: every item is written, every key not
      among the items keeps its value. */
  function SetAll(store: Store, items: map<string, Value>): (r: Store)
    ensures forall k :: k in items ==> Get(r, k) == Some(items[k])
    ensures forall k :: k !in items ==> Get(r, k) == Get(store, k)
  {
    store + items
  }
}
